=== FILE: README.md ===
# IDN-Hello scan, modelled in Dafny

A model of the command-line IDN-Hello discovery scan. For every IPv4 interface of the host, the scan:

- opens a UDP socket and enables broadcast;
- binds the socket to the interface and broadcasts a 4-byte `SCAN_REQUEST` carrying a random sequence number;
- listens for a short window for 44-byte `SCAN_RESPONSE` datagrams;
- logs one line per accepted answer: the unit identifier in hex, the host name in parentheses, and the sender's address.

The line is assembled in a 200-character array by a bounded builder (`vbufPrintf`/`bufPrintf`). The builder never writes past the array. When the text does not fit, it cuts the text and ends it with "...".

Modules, following the program's structure:

- `CStrings`: reading a nul-terminated string out of a fixed array.
- `Buffer`: `vbufPrintf`/`bufPrintf`, and the builder invariant that a run of calls keeps.
- `Net`: the `inet_ntop(AF_INET, …)` text of an address, into a 20-character array.
- `Packet`: the request header, the four checks on a received datagram, the receive buffer `gbl_packetBuffer`, and the fields read from a response.
- `Render`: the unit-identifier and host-name text, built through `bufPrintf` into `logString`.
- `Session`: `idnHelloScan`. The system calls' answers are an environment, and the receive window is a stream of events.
- `Platform`: `plt_ifAddrListVisitor`, `plt_sockStartup` and `plt_sockCleanup` of the POSIX layer.
- `Program`: `main`. It runs startup, visits every IPv4 interface, and always runs cleanup.

Two behaviours of the code are easy to misread, and the model follows the code in both:

- A refused datagram, such as one of the wrong size or with a wrong command or sequence, ends the receive loop (`break`, src/main.c:256-278). It is not skipped.
- Broadcast is enabled (src/main.c:170) before the socket is bound (src/main.c:183).

## Model

| member | source | states |
|---|---|---|
| Buffer.FillEllipsis | src/main.c:100-104 | The ellipsis loop fills every cell from the pointer up to the last one with '.'. It puts the terminator in the last cell, returns a pointer to it, and writes nothing outside that range. |
| Buffer.BufPrintf | src/main.c:69-105 | A null pointer or a non-positive length returns null and writes nothing. Otherwise the result points inside `[bufPtr, limitPtr)` at a terminator, and nothing outside that range changes. |
| Buffer.PrintFits | src/main.c:76-91 | A text that fits in front of the 4-character margin is written whole. The result points at its terminator, and nothing after the terminator changes. |
| Buffer.PrintCuts | src/main.c:76-104 | A text longer than the room keeps its first len-4 characters, followed by "...". The result points at the last cell. |
| Buffer.PrintFailed | src/main.c:92-97 | An encoding error terminates the string where it stood, and the pointer does not move. |
| Buffer.PrintNarrow | src/main.c:100-104 | With at most 4 cells left, whatever the text, the cells are dots and the result points at the last cell. |
| Buffer.FirstPrintHolds | src/main.c:282-289 | The first call establishes the builder invariant for its text, whatever the array held before. |
| Buffer.PrintHolds | src/main.c:289-296 | Each further non-empty call keeps the invariant. The array then shows the concatenation of all texts so far, cut to the room and followed by "...", with the pointer at its terminator. |
| Buffer.PrintHoldsCuts | src/main.c:82-104 | The call that crosses the margin leaves the prefix that fits, then "...". |
| Buffer.PrintHoldsSaturated | src/main.c:100-104 | Calls after the cut leave the shown text unchanged. |
| Buffer.SaturatedPrintIsIdle | src/main.c:100-104 | Once the pointer is at the last cell, a further call changes neither the array nor the pointer. |
| Buffer.PrintAllHolds | src/main.c:287-297 | A run of non-empty calls keeps the invariant for the concatenation of their texts. |
| Buffer.HoldsShows | src/main.c:282-300 | Under the invariant, the C string read at the start of the array is the bounded text, and it is at most limit-start-1 characters long. |
| CStrings.UpTo | src/main.c:296-300 | A `%s` read yields the characters up to the first terminator, with no terminator inside them. It yields nothing when no terminator follows, because the read would run off the array. |
| Net.Decimal | src/main.c:247-248 | A dotted-quad field is the shortest decimal digit string whose value is the octet, at most 3 digits long. |
| Net.NtopFits | src/main.c:247-252 | A dotted quad has at most 15 characters, so `inet_ntop` into the 20-character arrays never fails. |
| Packet.NetworkOrderRoundTrip | src/main.c:200 | `htons` and reading back in network order undo each other, both ways round. |
| Packet.SequenceCompareIsByteCompare | src/main.c:267 | Comparing the raw sequence fields is the same as comparing the sequence values. |
| Packet.EncodeRequest | src/main.c:197-202 | The request is 4 bytes: `SCAN_REQUEST`, flags 0, and `rand() & 0xFFFF` in network order. Parsed back, it gives exactly that header. |
| Packet.Validate | src/main.c:254-279 | A datagram is accepted exactly when all four checks pass: the length is 44, the command is `SCAN_RESPONSE`, the sequence is the one sent, and `structSize` is 40. |
| Packet.ChecksInOrder | src/main.c:254-279 | Each refusal names the first failing check, and is reported only when every earlier check passed. Both directions are stated. |
| Packet.Received | src/main.c:240 | `recvfrom` stores the datagram, cut to the 64 KiB buffer: a datagram that fits is kept whole, and an oversized one keeps exactly its first 64 KiB. |
| Packet.Store | src/main.c:240 | After a receive, the buffer starts with the datagram and keeps its old contents after it. |
| Packet.StoreOverSameLength | src/main.c:240 | Storing over a datagram of the same length forgets the earlier one completely. |
| Packet.Decode | src/main.c:285-296 | The unit ID is `unitID[0]` bytes taken after the count byte. The host name is exactly the buffer bytes from offset 24 up to the first zero, or up to the buffer's end when no zero follows. It contains no zero. |
| Packet.ResponseAccepted | src/main.c:254-279 | A device's well-formed response to this request passes all four checks. |
| Packet.ResponseLayout | src/main.c:274-296 | In an encoded response, the count byte, the unit-ID bytes and the terminated host name sit where the scan reads them. |
| Packet.ResponseRoundTrip | src/main.c:240-296 | Storing a well-formed response and decoding the buffer gives back the unit ID and host name the device sent, whatever stale bytes follow. |
| Packet.ForeignSequenceRejected | src/main.c:267-271 | A response to a request with another sequence number is refused for its sequence. |
| Render.Hex2 | src/main.c:289 | `%02X` gives two upper-case hex digits whose value is the byte. |
| Render.IdPiecesText | src/main.c:284-291 | The unit-ID loop's calls spell the hex pairs, with '-' after the first pair. None of the calls is empty. |
| Render.HostPiecesText | src/main.c:293-297 | The host-name call prints "(name)" exactly when the name is not empty. |
| Render.RecordPiecesText | src/main.c:284-297 | All calls of one record together spell the record text. |
| Render.RecordTextNoNul | src/main.c:289-296 | A record text contains no terminator. |
| Render.AsWrittenLogString | src/main.c:282-300 | As written, when at least one call runs, the logged text is the record text, cut to 196 characters plus "..." when longer, whatever the array held. |
| Render.AsWrittenReadsUninitialised | src/main.c:282-300 | As written, with no unit-ID byte and no host name, the logged text is the C string the uninitialised array held, whatever its contents. When the array holds no terminator there is no defined text (None): the read runs past the array. Stale "A" logs "A"; an array of 'A's has no defined text. |
| Render.PrintFixedShows | src/main.c:282-300 | Over an initialised array, every record leaves the bounded record text as the logged C string. |
| Render.PrintRecord | src/main.c:282-300 | As written, a logged text is shorter than the 200-character array and holds no terminator. |
| Render.LogString | src/main.c:282-300 | With `logString` initialised (the corrected member of the Finding), the logged text is the record text, cut to 196 characters plus "..." when longer. It never exceeds 199 characters. |
| Render.FixAgreesWhenDefined | src/main.c:282-300 | Whenever a unit-ID byte or a host name makes at least one `bufPrintf` call run, the as-written and initialised arrays log the same text. |
| Render.ExampleHex | src/main.c:289 | The hex pairs of AA BB CC are "AABBCC". |
| Render.ExampleRecord | src/main.c:284-300 | With `logString` initialised (the corrected member of the Finding), AA BB CC logs "AA-BBCC", and with host "dev1" it logs "AA-BBCC(dev1)". An empty record logs "". |
| Session.Line | src/main.c:300 | The printed line is the record text, cut to 196 characters plus "..." when longer, then " at " and the sender's dotted quad. |
| Session.HostText | src/main.c:296 | The host-name bytes print as one character each: character i has the value of byte i. A name without zero bytes prints without terminators. |
| Session.Collect | src/main.c:221-301 | The receive loop logs at most one record per event and leaves a full-size buffer. |
| Session.AcceptedFillsResponse | src/main.c:240-254 | An accepted datagram is exactly one response long, so storing it replaces only the response bytes. |
| Session.CollectStops | src/main.c:221-279 | The loop runs through accepted events and ends at the first event it does not accept. It ends for that event's reason: timeout, select or recvfrom error, unprintable sender, or the refused check. A window of only accepted datagrams ends by timing out. |
| Session.CollectStep | src/main.c:221-300 | One pass of the loop: an accepted datagram puts its record in front of the records that follow, and any other event ends the loop with no record. |
| Session.CollectRecordAt | src/main.c:240-300 | Record i belongs to the i-th event, which was accepted. It is read from that datagram and the buffer bytes beyond the response length. |
| Session.CollectRecords | src/main.c:221-301 | The records are those of the accepted datagrams, in arrival order. |
| Session.LaterEventsIgnored | src/main.c:221-279 | When the window holds an event the loop does not accept, events after the window change nothing, because the loop has already ended. |
| Session.Scan | src/main.c:145-310 | A failed setup logs nothing and leaves the receive buffer alone. A scan that collects ran every setup call in order and sent the request for `rand()`. The receive buffer stays 64 KiB. |
| Session.SetupInOrder | src/main.c:150-206 | The setup calls run in the order `idnHelloScan` makes them, and each call before the last succeeded. The scan stops at the first failure. A failed setup logs nothing and leaves the buffer alone. |
| Session.ClosedOnceIffOpened | src/main.c:305-309 | The socket is closed once exactly when `socket()` returned a descriptor. |
| Session.RequestSent | src/main.c:197-206 | `sendto()` is reached only after the earlier steps succeeded, and it is handed the request for `rand()`. |
| Session.CollectsAgainstRequest | src/main.c:200-301 | A scan that collects checks the answers against the sequence it sent, and reports what the loop yields. |
| Session.CollectsIffSetupSucceeds | src/main.c:150-221 | The receive loop runs exactly when every setup call succeeds. |
| Session.QuietNetwork | src/main.c:221-309 | With no answer before the window closes, nothing is logged, the scan ends normally, and the socket is closed. |
| Session.DeviceFound | src/main.c:221-300 | One device answers: exactly one record is logged, naming its unit ID, its host name and its address. |
| Platform.Ipv4Interfaces | src/plt-posix.h:68-76 | The walk makes at most one callback per list entry. |
| Platform.WalkAppend | src/plt-posix.h:68-76 | Walking two lists one after the other makes the callbacks of the first, then those of the second. |
| Platform.WalkEntry | src/plt-posix.h:70-75 | An entry yields one callback with its name and address when it is IPv4, and none otherwise. |
| Platform.SkippedEntry | src/plt-posix.h:70-71 | Dropping an entry with a null or non-IPv4 address changes no callback. |
| Platform.WalkMembers | src/plt-posix.h:68-76 | Every callback comes from an IPv4 entry, and every IPv4 entry makes one. |
| Platform.IfAddrListVisitor | src/plt-posix.h:55-82 | The visitor returns -1 exactly when `getifaddrs` fails, having made no callback and freed nothing. Otherwise it makes the callbacks of the walk in order, frees the list once after them, and returns 0. |
| Program.ScanAll | src/main.c:336 | Scan k probes the k-th interface, on the receive buffer the scan before it left behind. |
| Program.Main | src/main.c:317-344 | Startup comes first, and cleanup runs once and last on every path. A failed startup skips the visitor. The visitor's calls sit in between, one scan runs per IPv4 interface, and the exit code is 0. |
| Program.PosixAlwaysScans | src/plt-posix.h:85-94 | On POSIX, startup and cleanup return 0, so the interfaces are always visited and scanned. |

## Left out

- Real system calls, clocks and randomness. The answers of `socket`, `setsockopt`, `bind`, `sendto`, `select`, `recvfrom`, `getifaddrs` and `rand` are parameters. The 500 ms window is a stream of events, and the end of that stream counts as a timeout.
- `srand(time(NULL))`, the banner `printf`s, and all `logError`/`logInfo` output except the record line. That includes the "Scanning interface %s" line with its "<?>" default for a missing name, and the close/cleanup error messages.
- The socket address structures, `INADDR_BROADCAST`, the port in network order, and the `select` descriptor set. The model records which setup call was made, and for `sendto` the request bytes. It does not record the bind address (the interface address with port 0) or the send destination.
- `vsnprintf` itself. Its output is given as text or as an encoding error, and on an error it is assumed to write nothing.
- Packet.Decode: the `%s` read of the host name stops at the end of the 64 KiB buffer, where C would read beyond it.
- Session.Line: prints through the corrected Render.LogString. For `unitID[0] == 0` and an empty host name the code logs the stale contents of `logString` instead (see Findings, Render.AsWrittenReadsUninitialised).
- idn-hello.h and plt-windows.h are not part of this model. The command codes, sizes and offsets follow the IDN-Hello scan response layout.
- `plt_sockGetLastError`, `plt_sockOpen`, `plt_sockClose` and `plt_sockSetBroadcast` are answers of the environment, not modelled code.

## Findings

| source | as written | input that shows it | evidently intended | confidence | as-written member | corrected member |
|---|---|---|---|---|---|---|
| src/main.c:282-300 | `char logString[200]` is not initialised, and the first `bufPrintf` call is what terminates it | A response with `unitID[0] == 0` and `hostName[0] == 0`: no call runs, and `logInfo` prints the array's stale contents, or reads past it when no zero byte is there | The array starts as an empty string, so such a record logs "" | not executed | Render.AsWrittenReadsUninitialised | Render.LogString |

=== FILE: buffer.dfy ===
/** The bounded string builder `vbufPrintf`/`bufPrintf` of src/main.c.

    A C character array is a `seq<char>`; a `char *` into it is an offset
    into that sequence, or `Null`. The text `vsnprintf` would produce from the
    format and its arguments is given directly: either the characters, or an
    encoding error. */
module Buffer {
  import opened Wrappers
  import CStrings

  const NUL: char := 0 as char

  /** Characters held back at the end of the buffer for "..." and the
      terminator. */
  const Margin: int := 4

  datatype Ptr = Null | At(offset: int)

  /** What `vsnprintf` produces for a format and its arguments. */
  datatype Formatted = Text(chars: string) | FormatError

  /** The buffer after a call, and the pointer the call returned. */
  datatype Printed = Printed(buf: seq<char>, ptr: Ptr)

  predicate NoNul(s: string)
  {
    forall i :: 0 <= i < |s| ==> s[i] != NUL
  }

  function Min(a: int, b: int): (m: int)
  {
    if a <= b then a else b
  }

  /** C `vsnprintf(&buf[p], size, ...)`: stores at most `size - 1` characters of
      the text and a terminator, and returns the length of the whole text; on
      an encoding error it stores nothing and returns a negative value. */
  function Snprintf(buf: seq<char>, p: int, size: int, text: Formatted): (r: (seq<char>, int))
    requires 0 <= p && 1 <= size && p + size <= |buf|
  {
    match text
    case FormatError => (buf, -1)
    case Text(s) =>
      var k := Min(|s|, size - 1);
      (buf[..p] + s[..k] + [NUL] + buf[p + k + 1..], |s|)
  }

  /** The ellipsis loop: dots from `p` up to, not including, the last cell
      before `limit`, then the terminator in that cell, and the pointer to it. */
  function FillEllipsis(buf: seq<char>, p: int, limit: int): (r: Printed)
    requires 0 <= p < limit <= |buf|
    ensures |r.buf| == |buf| && r.ptr == At(limit - 1)
    ensures r.buf[..p] == buf[..p] && r.buf[limit..] == buf[limit..]
    ensures forall i :: p <= i < limit - 1 ==> r.buf[i] == '.'
    ensures r.buf[limit - 1] == NUL
    decreases limit - p
  {
    if limit - p > 1 then
      var r := FillEllipsis(buf[p := '.'], p + 1, limit);
      assert r.buf[..p] == r.buf[..p + 1][..p];
      r
    else
      Printed(buf[p := NUL], At(p))
  }

  /** `vbufPrintf(bufPtr, limitPtr, fmt, args)` where `text` is what the format
      and arguments expand to. `limit` is the offset of `limitPtr`. What it
      writes in each case is stated by the lemmas below. */
  function BufPrintf(buf: seq<char>, ptr: Ptr, limit: int, text: Formatted): (r: Printed)
    requires limit <= |buf|
    requires ptr.At? ==> 0 <= ptr.offset
    ensures |r.buf| == |buf|
    // A null or empty buffer: null is returned and nothing is written.
    ensures r.ptr.Null? <==> ptr.Null? || limit - ptr.offset <= 0
    ensures r.ptr.Null? ==> r.buf == buf
    // Nothing outside [bufPtr, limitPtr) is written, and the result is
    // terminated.
    ensures r.ptr.At? ==>
              && ptr.offset <= r.ptr.offset < limit
              && r.buf[..ptr.offset] == buf[..ptr.offset]
              && r.buf[limit..] == buf[limit..]
              && r.buf[r.ptr.offset] == NUL
  {
    if ptr.Null? || limit - ptr.offset <= 0 then Printed(buf, Null)
    else
      var p := ptr.offset;
      var len := limit - p;
      if len > Margin then
        var n := len - Margin;
        var (b, rc) := Snprintf(buf, p, n + 1, text);
        if rc > n then FillEllipsis(b, p + n, limit)
        else if rc >= 0 then Printed(b, At(p + rc))
        else Printed(b[p := NUL], At(p))
      else
        FillEllipsis(buf, p, limit)
  }

  /** The text fits in front of the margin: all of it is written, the result
      points at its terminator, and nothing after the terminator changes. */
  lemma PrintFits(buf: seq<char>, p: int, limit: int, s: string)
    requires 0 <= p && limit - p > Margin && limit <= |buf| && |s| <= limit - p - Margin
    ensures var r := BufPrintf(buf, At(p), limit, Text(s));
            && r.ptr == At(p + |s|)
            && r.buf[p..p + |s|] == s
            && r.buf[p + |s| + 1..] == buf[p + |s| + 1..]
  {
    var r := BufPrintf(buf, At(p), limit, Text(s));
    assert r.buf == buf[..p] + s + [NUL] + buf[p + |s| + 1..];
  }

  /** The text does not fit: the first len-4 characters, "...", and the
      terminator in the last cell. */
  lemma PrintCuts(buf: seq<char>, p: int, limit: int, s: string)
    requires 0 <= p && limit - p > Margin && limit <= |buf| && |s| > limit - p - Margin
    ensures var r := BufPrintf(buf, At(p), limit, Text(s));
            && r.ptr == At(limit - 1)
            && r.buf[p..limit - 1] == s[..limit - Margin - p] + "..."
  {
    var n := limit - p - Margin;
    var b := Snprintf(buf, p, n + 1, Text(s)).0;
    assert b == buf[..p] + s[..n] + [NUL] + buf[p + n + 1..];
    assert b[p..p + n] == s[..n];
    var r := FillEllipsis(b, p + n, limit);
    assert r.buf[p..p + n] == r.buf[..p + n][p..];
    assert r.buf[p..limit - 1] == r.buf[p..p + n] + r.buf[p + n..limit - 1];
  }

  /** An encoding error: the string is terminated where it stood and the
      pointer does not move. */
  lemma PrintFailed(buf: seq<char>, p: int, limit: int)
    requires 0 <= p && limit - p > Margin && limit <= |buf|
    ensures BufPrintf(buf, At(p), limit, FormatError) == Printed(buf[p := NUL], At(p))
  {
  }

  /** Room for no more than the ellipsis: len-1 dots and the terminator,
      whatever the text. */
  lemma PrintNarrow(buf: seq<char>, p: int, limit: int, text: Formatted)
    requires 0 <= p && 0 < limit - p <= Margin && limit <= |buf|
    ensures var r := BufPrintf(buf, At(p), limit, text);
            && r.ptr == At(limit - 1)
            && forall i :: p <= i < limit - 1 ==> r.buf[i] == '.'
  {
  }

  /** What the buffer shows after `text` was appended from `start` on, with
      `room` characters available in front of the margin. */
  function Bounded(text: string, room: nat): (r: string)
  {
    if |text| <= room then text else text[..room] + "..."
  }

  /** The builder invariant: the region from `start` to `limit` holds `text`
      (cut to the room in front of the margin) as a C string, and the pointer
      is at its terminator. */
  ghost predicate Holds(p: Printed, start: int, limit: int, text: string)
  {
    && 0 <= start && start + Margin < limit <= |p.buf|
    && var shown := Bounded(text, limit - start - Margin);
       && p.ptr == At(start + |shown|)
       && p.buf[start..start + |shown|] == shown
       && p.buf[start + |shown|] == NUL
  }

  /** The first call into a buffer, whatever it held before, establishes the
      invariant for the text it writes. */
  lemma FirstPrintHolds(buf: seq<char>, start: int, limit: int, s: string)
    requires 0 <= start && start + Margin < limit <= |buf|
    ensures Holds(BufPrintf(buf, At(start), limit, Text(s)), start, limit, s)
  {
    if |s| <= limit - start - Margin {
      PrintFits(buf, start, limit, s);
    } else {
      PrintCuts(buf, start, limit, s);
    }
  }

  /** Appending a text that still fits in front of the margin. */
  lemma PrintHoldsFits(p: Printed, start: int, limit: int, text: string, s: string)
    requires Holds(p, start, limit, text) && s != [] && |text + s| <= limit - start - Margin
    ensures Holds(BufPrintf(p.buf, p.ptr, limit, Text(s)), start, limit, text + s)
  {
    var q := start + |text|;
    PrintFits(p.buf, q, limit, s);
    var r := BufPrintf(p.buf, p.ptr, limit, Text(s));
    assert p.buf[start..q] == text;
    assert r.buf[start..q + |s|] == r.buf[start..q] + r.buf[q..q + |s|];
    assert r.buf[start..q] == r.buf[..q][start..];
  }

  /** Two adjacent regions of a buffer, the first unchanged by a write. */
  lemma JoinRegions(before: seq<char>, after: seq<char>, start: int, q: int, end: int, a: string, b: string)
    requires 0 <= start <= q <= end <= |after| && q <= |before|
    requires after[..q] == before[..q] && before[start..q] == a && after[q..end] == b
    ensures after[start..end] == a + b
  {
    assert after[start..q] == after[..q][start..];
    assert after[start..end] == after[start..q] + after[q..end];
  }

  /** The tail a call from the end of `text` writes when the concatenation
      crosses the margin: what still fits of `s`, then "...". */
  lemma CutTail(buf: seq<char>, q: int, limit: int, room: int, text: string, s: string)
    requires 0 <= q && q + Margin <= limit <= |buf| && limit - q - Margin == room - |text|
    requires 0 <= |text| <= room < |text + s|
    ensures var r := BufPrintf(buf, At(q), limit, Text(s));
            && r.ptr == At(limit - 1)
            && r.buf[q..limit - 1] == s[..room - |text|] + "..."
  {
    if |text| < room {
      PrintCuts(buf, q, limit, s);
    } else {
      PrintNarrow(buf, q, limit, Text(s));
    }
  }

  /** Appending a text that crosses the margin: the buffer now shows the cut
      and the ellipsis. */
  lemma PrintHoldsCuts(p: Printed, start: int, limit: int, text: string, s: string)
    requires Holds(p, start, limit, text)
    requires |text| <= limit - start - Margin < |text + s|
    ensures Holds(BufPrintf(p.buf, p.ptr, limit, Text(s)), start, limit, text + s)
  {
    var room := limit - start - Margin;
    var q := start + |text|;
    assert p.ptr == At(q) && p.buf[start..q] == text;
    var r := BufPrintf(p.buf, At(q), limit, Text(s));
    var tail := s[..room - |text|] + "...";
    CutTail(p.buf, q, limit, room, text, s);
    JoinRegions(p.buf, r.buf, start, q, limit - 1, text, tail);
    assert (text + s)[..room] + "..." == text + tail;
  }

  /** Appending after the cut: nothing changes. */
  lemma PrintHoldsSaturated(p: Printed, start: int, limit: int, text: string, s: string)
    requires Holds(p, start, limit, text) && |text| > limit - start - Margin
    ensures Holds(BufPrintf(p.buf, p.ptr, limit, Text(s)), start, limit, text + s)
  {
    var room := limit - start - Margin;
    PrintNarrow(p.buf, limit - 1, limit, Text(s));
    var r := BufPrintf(p.buf, p.ptr, limit, Text(s));
    assert (text + s)[..room] == text[..room];
    assert r.buf[start..limit - 1] == r.buf[..limit - 1][start..];
    assert p.buf[start..limit - 1] == p.buf[..limit - 1][start..];
  }

  /** Appending a non-empty text keeps the invariant: the buffer shows the
      concatenation, cut to the same room. */
  lemma PrintHolds(p: Printed, start: int, limit: int, text: string, s: string)
    requires Holds(p, start, limit, text) && s != []
    ensures Holds(BufPrintf(p.buf, p.ptr, limit, Text(s)), start, limit, text + s)
  {
    var room := limit - start - Margin;
    if |text + s| <= room {
      PrintHoldsFits(p, start, limit, text, s);
    } else if |text| <= room {
      PrintHoldsCuts(p, start, limit, text, s);
    } else {
      PrintHoldsSaturated(p, start, limit, text, s);
    }
  }

  /** Once the result is `limitPtr - 1`, further calls change nothing, whatever
      they format. */
  lemma SaturatedPrintIsIdle(buf: seq<char>, limit: int, text: Formatted)
    requires 1 <= limit <= |buf| && buf[limit - 1] == NUL
    ensures BufPrintf(buf, At(limit - 1), limit, text) == Printed(buf, At(limit - 1))
  {
    var r := BufPrintf(buf, At(limit - 1), limit, text);
    assert r.buf == r.buf[..limit - 1] + [r.buf[limit - 1]] + r.buf[limit..];
    assert buf == buf[..limit - 1] + [buf[limit - 1]] + buf[limit..];
  }

  /** The concatenation of a list of texts. */
  function Concat(pieces: seq<string>): (s: string)
  {
    if |pieces| == 0 then [] else pieces[0] + Concat(pieces[1..])
  }

  lemma ConcatAppend(a: seq<string>, b: seq<string>)
    ensures Concat(a + b) == Concat(a) + Concat(b)
  {
    if |a| > 0 {
      assert (a + b)[1..] == a[1..] + b;
      ConcatAppend(a[1..], b);
    } else {
      assert a + b == b;
    }
  }

  /** A run of `bufPrintf` calls, each continuing where the previous one
      returned. */
  function PrintAll(p: Printed, limit: int, pieces: seq<string>): (r: Printed)
    requires limit <= |p.buf| && (p.ptr.At? ==> 0 <= p.ptr.offset)
    ensures |r.buf| == |p.buf| && (r.ptr.At? ==> 0 <= r.ptr.offset)
    decreases |pieces|
  {
    if |pieces| == 0 then p
    else PrintAll(BufPrintf(p.buf, p.ptr, limit, Text(pieces[0])), limit, pieces[1..])
  }

  /** A run of non-empty texts keeps the invariant for their concatenation. */
  lemma {:induction false} PrintAllHolds(p: Printed, start: int, limit: int, text: string, pieces: seq<string>)
    requires Holds(p, start, limit, text)
    requires forall i :: 0 <= i < |pieces| ==> pieces[i] != []
    ensures Holds(PrintAll(p, limit, pieces), start, limit, text + Concat(pieces))
    decreases |pieces|
  {
    if |pieces| > 0 {
      PrintHolds(p, start, limit, text, pieces[0]);
      var p' := BufPrintf(p.buf, p.ptr, limit, Text(pieces[0]));
      PrintAllHolds(p', start, limit, text + pieces[0], pieces[1..]);
      assert text + pieces[0] + Concat(pieces[1..]) == text + Concat(pieces);
    } else {
      assert text + Concat(pieces) == text;
    }
  }

  /** Under the invariant, the C string at `start` is the bounded text: never
      longer than `limit - start - 1` characters. */
  lemma HoldsShows(p: Printed, start: int, limit: int, text: string)
    requires Holds(p, start, limit, text) && NoNul(text)
    ensures CStrings.UpTo(p.buf, start, NUL) == Some(Bounded(text, limit - start - Margin))
    ensures |Bounded(text, limit - start - Margin)| <= limit - start - 1
  {
    var shown := Bounded(text, limit - start - Margin);
    forall i | start <= i < start + |shown|
      ensures p.buf[i] != NUL
    {
      assert p.buf[i] == shown[i - start];
    }
    CStrings.UpToAt(p.buf, start, |shown|, NUL);
  }
}

=== FILE: cstrings.dfy ===
/** Reading a nul-terminated string out of a fixed array, as `%s` and
    `printf("%s", ...)` do in C. */
module CStrings {
  import opened Wrappers

  /** The elements of `s` from index `from` up to, not including, the first
      `term`. `None` when no `term` occurs from `from` on: the C read would run
      off the end of the array. */
  function UpTo<T(==)>(s: seq<T>, from: nat, term: T): (r: Option<seq<T>>)
    ensures r.Some? ==>
              && from + |r.value| < |s|
              && s[from + |r.value|] == term
              && s[from..from + |r.value|] == r.value
              && (forall i :: 0 <= i < |r.value| ==> r.value[i] != term)
    ensures r.None? ==> forall i :: from <= i < |s| ==> s[i] != term
    decreases |s| - from
  {
    if from >= |s| then None
    else if s[from] == term then Some([])
    else
      match UpTo(s, from + 1, term)
      case None => None
      case Some(t) => Some([s[from]] + t)
  }

  /** A terminator at `from + k` with none before it: the read yields exactly
      the `k` elements in between. */
  lemma UpToAt<T>(s: seq<T>, from: nat, k: nat, term: T)
    requires from + k < |s| && s[from + k] == term
    requires forall i :: from <= i < from + k ==> s[i] != term
    ensures UpTo(s, from, term) == Some(s[from..from + k])
  {
  }
}

=== FILE: net.dfy ===
/** The parts of the socket API the scan relies on for addresses:
    `inet_ntop(AF_INET, ...)` into a fixed character array. */
module Net {
  import opened Wrappers

  const AF_INET: int := 2

  /** Size of `ifAddrString` and `recvAddrString` in src/main.c. */
  const AddrTextSize: nat := 20

  /** An IPv4 address as its four octets, in network order. */
  datatype Ip4 = Ip4(a: bv8, b: bv8, c: bv8, d: bv8)

  predicate IsDigit(ch: char)
  {
    '0' <= ch <= '9'
  }

  /** The number a string of decimal digits denotes. */
  function DigitsValue(s: string): (n: int)
  {
    if |s| == 0 then 0
    else 10 * DigitsValue(s[..|s| - 1]) + (s[|s| - 1] as int - '0' as int)
  }

  /** `%u`: the shortest decimal digits of `n`. */
  function Decimal(n: nat): (r: string)
    ensures 1 <= |r| && forall i :: 0 <= i < |r| ==> IsDigit(r[i])
    ensures DigitsValue(r) == n
    ensures n < 10 ==> |r| == 1
    ensures n < 100 ==> |r| <= 2
    ensures n < 1000 ==> |r| <= 3
  {
    var last := ('0' as int + n % 10) as char;
    if n < 10 then [last]
    else
      var r := Decimal(n / 10) + [last];
      assert r[..|r| - 1] == Decimal(n / 10);
      r
  }

  /** Dotted-quad text of an address. */
  function Ip4Text(ip: Ip4): (t: string)
  {
    Decimal(ip.a as int) + "." + Decimal(ip.b as int) + "." + Decimal(ip.c as int) + "." + Decimal(ip.d as int)
  }

  /** `inet_ntop(AF_INET, &addr, dst, size)`: the text and its terminator must
      fit in `size` characters, otherwise the call fails. */
  function InetNtop(ip: Ip4, size: nat): (r: Option<string>)
  {
    var t := Ip4Text(ip);
    if |t| < size then Some(t) else None
  }

  /** A dotted quad has at most 15 characters, so the 20-character arrays the
      scan uses never make `inet_ntop` fail. */
  lemma NtopFits(ip: Ip4)
    ensures |Ip4Text(ip)| <= 15
    ensures InetNtop(ip, AddrTextSize) == Some(Ip4Text(ip))
  {
  }
}

=== FILE: packet.dfy ===
/** IDN-Hello packet framing as used by the scan: the 4-byte packet header
    (`IDNHDR_PACKET`) and the scan response body (`IDNHDR_SCAN_RESPONSE`).

    The header file that defines the command codes and structure layouts,
    idn-hello.h, is not part of this model; the constants below follow the
    IDN-Hello protocol layout: command, flags and a 16-bit sequence in the
    header; structSize, protocolVersion, status, reserved, a 16-byte unitID
    field and a 20-byte hostName field in the scan response. */
module Packet {
  import opened Wrappers
  import CStrings

  const CmdScanRequest: bv8 := 0x10
  const CmdScanResponse: bv8 := 0x11

  /** sizeof(IDNHDR_PACKET) */
  const PacketHeaderSize: nat := 4
  /** sizeof(IDNHDR_SCAN_RESPONSE) */
  const ScanResponseSize: nat := 40
  /** The only datagram length the scan accepts. */
  const ResponseSize: nat := PacketHeaderSize + ScanResponseSize

  /** Offsets within the datagram. */
  const StructSizeOffset: nat := PacketHeaderSize
  const UnitIdOffset: nat := PacketHeaderSize + 4
  const UnitIdCapacity: nat := 16
  const HostNameOffset: nat := UnitIdOffset + UnitIdCapacity
  const HostNameCapacity: nat := 20

  /** sizeof(gbl_packetBuffer), the receive buffer. */
  const WorkBufferSize: nat := 0x10000

  /** `rand() & 0xFFFF`: the sequence number a request carries. */
  function SequenceOf(r: nat): (s: bv16)
  {
    (r % 0x10000) as bv16
  }

  /** `htons(v)` as it lies in memory: high byte first. */
  function NetworkOrder(v: bv16): (b: seq<bv8>)
  {
    [(v >> 8) as bv8, (v & 0xFF) as bv8]
  }

  /** `ntohs` of two bytes in memory. */
  function ReadSequence(hi: bv8, lo: bv8): (v: bv16)
  {
    ((hi as bv16) << 8) | (lo as bv16)
  }

  /** The two byte orders undo each other, both ways round. */
  lemma NetworkOrderRoundTrip(v: bv16, hi: bv8, lo: bv8)
    ensures ReadSequence(NetworkOrder(v)[0], NetworkOrder(v)[1]) == v
    ensures NetworkOrder(ReadSequence(hi, lo)) == [hi, lo]
  {
  }

  /** The scan compares the raw 16-bit sequence fields; comparing their
      values in host order is the same test. */
  lemma SequenceCompareIsByteCompare(hi: bv8, lo: bv8, v: bv16)
    ensures ReadSequence(hi, lo) == v <==> [hi, lo] == NetworkOrder(v)
  {
    NetworkOrderRoundTrip(v, hi, lo);
  }

  datatype Header = Header(command: bv8, flags: bv8, sequence: bv16)

  /** The fields of a packet header, sequence in host order. */
  function ParseHeader(bytes: seq<bv8>): (h: Header)
    requires |bytes| >= PacketHeaderSize
  {
    Header(bytes[0], bytes[1], ReadSequence(bytes[2], bytes[3]))
  }

  /** The request a scan sends, for the value `r` that `rand()` returned. */
  function EncodeRequest(r: nat): (bytes: seq<bv8>)
    ensures |bytes| == PacketHeaderSize
    ensures ParseHeader(bytes) == Header(CmdScanRequest, 0, SequenceOf(r))
  {
    NetworkOrderRoundTrip(SequenceOf(r), 0, 0);
    [CmdScanRequest, 0] + NetworkOrder(SequenceOf(r))
  }

  /** Why a received datagram was accepted or refused. */
  datatype Verdict = Accepted | WrongLength | WrongCommand | WrongSequence | WrongBodySize

  /** The four checks the scan makes on a datagram of `data` while waiting for
      answers to the request with sequence `sent`, in their order; the first
      that fails decides the verdict. A datagram is accepted exactly when all
      four pass. */
  function Validate(data: seq<bv8>, sent: bv16): (v: Verdict)
    ensures v == Accepted <==>
              && |data| == ResponseSize
              && data[0] == CmdScanResponse
              && ParseHeader(data).sequence == sent
              && data[StructSizeOffset] as int == ScanResponseSize
  {
    if |data| != ResponseSize then WrongLength
    else if data[0] != CmdScanResponse then WrongCommand
    else if ReadSequence(data[2], data[3]) != sent then WrongSequence
    else if data[StructSizeOffset] as int != ScanResponseSize then WrongBodySize
    else Accepted
  }

  /** Each refusal names the first check that fails: a check is reported
      only when every check before it passed. */
  lemma ChecksInOrder(data: seq<bv8>, sent: bv16)
    ensures Validate(data, sent) == WrongLength <==> |data| != ResponseSize
    ensures Validate(data, sent) == WrongCommand <==>
              |data| == ResponseSize && data[0] != CmdScanResponse
    ensures Validate(data, sent) == WrongSequence <==>
              && |data| == ResponseSize && data[0] == CmdScanResponse
              && ParseHeader(data).sequence != sent
    ensures Validate(data, sent) == WrongBodySize <==>
              && |data| == ResponseSize && data[0] == CmdScanResponse
              && ParseHeader(data).sequence == sent
              && data[StructSizeOffset] as int != ScanResponseSize
  {
  }

  /** What `recvfrom` stores: the datagram, cut to the buffer size. */
  function Received(data: seq<bv8>): (r: seq<bv8>)
    ensures |r| <= WorkBufferSize && |r| <= |data| && r == data[..|r|]
    ensures |data| <= WorkBufferSize ==> r == data
    ensures |data| > WorkBufferSize ==> |r| == WorkBufferSize
  {
    if |data| <= WorkBufferSize then data else data[..WorkBufferSize]
  }

  /** The receive buffer after `recvfrom` stored `data` in it: the rest keeps
      what earlier datagrams left there. */
  function Store(data: seq<bv8>, work: seq<bv8>): (w: seq<bv8>)
    requires |work| == WorkBufferSize
    ensures |w| == WorkBufferSize
    ensures w[..|Received(data)|] == Received(data)
    ensures w[|Received(data)|..] == work[|Received(data)|..]
  {
    var d := Received(data);
    d + work[|d|..]
  }

  /** Storing a datagram over one of the same length forgets the earlier one
      completely. */
  lemma StoreOverSameLength(d1: seq<bv8>, d2: seq<bv8>, work: seq<bv8>)
    requires |work| == WorkBufferSize && |d1| == |d2| <= WorkBufferSize
    ensures Store(d2, Store(d1, work)) == Store(d2, work)
  {
    var w1 := Store(d1, work);
    assert w1[|d2|..] == work[|d2|..];
  }

  /** The unit identifier and host name a scan response carries. */
  datatype ScanRecord = ScanRecord(unitId: seq<bv8>, hostName: seq<bv8>)

  /** The fields as the scan reads them out of the receive buffer: `unitID[0]`
      bytes after the count byte, whatever field they fall in, and the host
      name up to the first zero byte. */
  function Decode(work: seq<bv8>): (rec: ScanRecord)
    requires |work| == WorkBufferSize
    ensures |rec.unitId| == work[UnitIdOffset] as int
    ensures rec.unitId == work[UnitIdOffset + 1..UnitIdOffset + 1 + |rec.unitId|]
    ensures HostNameOffset + |rec.hostName| <= |work|
    ensures work[HostNameOffset..HostNameOffset + |rec.hostName|] == rec.hostName
    ensures forall i :: 0 <= i < |rec.hostName| ==> rec.hostName[i] != 0
    ensures HostNameOffset + |rec.hostName| == |work| || work[HostNameOffset + |rec.hostName|] == 0
  {
    var n := work[UnitIdOffset] as int;
    var host := match CStrings.UpTo(work, HostNameOffset, 0 as bv8)
      case Some(h) => h
      case None => work[HostNameOffset..];
    ScanRecord(work[UnitIdOffset + 1..UnitIdOffset + 1 + n], host)
  }

  function Zeros(n: nat): (z: seq<bv8>)
    ensures |z| == n && forall i :: 0 <= i < n ==> z[i] == 0
  {
    seq(n, _ => 0)
  }

  /** A well-formed scan response, as a device answering request `sequence`
      would send it. The fields the scan does not read (flags,
      protocolVersion, status, reserved) are zero. */
  function EncodeResponse(sequence: bv16, unitId: seq<bv8>, hostName: seq<bv8>): (bytes: seq<bv8>)
    requires |unitId| < UnitIdCapacity && |hostName| < HostNameCapacity
    ensures |bytes| == ResponseSize
  {
    [CmdScanResponse, 0] + NetworkOrder(sequence) + [ScanResponseSize as bv8, 0, 0, 0]
    + [|unitId| as bv8] + unitId + Zeros(UnitIdCapacity - 1 - |unitId|)
    + hostName + Zeros(HostNameCapacity - |hostName|)
  }

  /** A device's answer to this scan is accepted. */
  lemma ResponseAccepted(sequence: bv16, unitId: seq<bv8>, hostName: seq<bv8>)
    requires |unitId| < UnitIdCapacity && |hostName| < HostNameCapacity
    ensures Validate(EncodeResponse(sequence, unitId, hostName), sequence) == Accepted
  {
    NetworkOrderRoundTrip(sequence, 0, 0);
  }

  /** Where the fields of an encoded response lie. */
  lemma ResponseLayout(sequence: bv16, unitId: seq<bv8>, hostName: seq<bv8>)
    requires |unitId| < UnitIdCapacity && |hostName| < HostNameCapacity
    ensures var e := EncodeResponse(sequence, unitId, hostName);
            && e[UnitIdOffset] as int == |unitId|
            && e[UnitIdOffset + 1..UnitIdOffset + 1 + |unitId|] == unitId
            && e[HostNameOffset..HostNameOffset + |hostName|] == hostName
            && e[HostNameOffset + |hostName|] == 0
  {
    var e := EncodeResponse(sequence, unitId, hostName);
    var idField := [|unitId| as bv8] + unitId + Zeros(UnitIdCapacity - 1 - |unitId|);
    var hostField := hostName + Zeros(HostNameCapacity - |hostName|);
    assert e == e[..UnitIdOffset] + idField + hostField;
    assert e[UnitIdOffset..HostNameOffset] == idField;
    assert e[HostNameOffset..] == hostField;
  }

  /** The scan reads back the unit identifier and host name a device sent,
      whatever stale bytes follow the response in the receive buffer. */
  lemma ResponseRoundTrip(sequence: bv16, unitId: seq<bv8>, hostName: seq<bv8>, work: seq<bv8>)
    requires |unitId| < UnitIdCapacity && |hostName| < HostNameCapacity
    requires forall i :: 0 <= i < |hostName| ==> hostName[i] != 0
    requires |work| == WorkBufferSize
    ensures Decode(Store(EncodeResponse(sequence, unitId, hostName), work)) == ScanRecord(unitId, hostName)
  {
    var e := EncodeResponse(sequence, unitId, hostName);
    ResponseLayout(sequence, unitId, hostName);
    var w := Store(e, work);
    assert w[..ResponseSize] == e;
    var k := |hostName|;
    assert w[UnitIdOffset + 1..UnitIdOffset + 1 + |unitId|] == e[UnitIdOffset + 1..UnitIdOffset + 1 + |unitId|];
    assert w[HostNameOffset..HostNameOffset + k] == e[HostNameOffset..HostNameOffset + k];
    assert w[HostNameOffset + k] == e[HostNameOffset + k];
    CStrings.UpToAt(w, HostNameOffset, k, 0 as bv8);
  }

  /** A response to a request with another sequence number, such as one sent
      by a scan on another interface, is refused for its sequence. */
  lemma ForeignSequenceRejected(s1: bv16, s2: bv16, unitId: seq<bv8>, hostName: seq<bv8>)
    requires |unitId| < UnitIdCapacity && |hostName| < HostNameCapacity
    requires s1 != s2
    ensures Validate(EncodeResponse(s1, unitId, hostName), s2) == WrongSequence
  {
    NetworkOrderRoundTrip(s1, 0, 0);
    ChecksInOrder(EncodeResponse(s1, unitId, hostName), s2);
  }
}

=== FILE: platform.dfy ===
/** The POSIX platform layer, src/plt-posix.h: walking the interface list
    that getifaddrs() returns, and socket startup and cleanup. */
module Platform {
  import opened Wrappers
  import opened Net

  datatype SockAddr = SockAddr(family: int, ip4: Ip4)

  /** One `struct ifaddrs` entry: the interface name (null when absent) and
      its address (null when absent). */
  datatype IfAddr = IfAddr(name: Option<string>, addr: Option<SockAddr>)

  /** The arguments of one callback: interface name and IPv4 address. */
  datatype Iface = Iface(name: Option<string>, ip4: Ip4)

  /** An entry the walk hands to the callback: its address is present and
      of family AF_INET. */
  predicate IsIpv4(e: IfAddr)
  {
    e.addr.Some? && e.addr.value.family == AF_INET
  }

  function IfaceOf(e: IfAddr): (i: Iface)
    requires IsIpv4(e)
  {
    Iface(e.name, e.addr.value.ip4)
  }

  /** The callbacks of the walk over the list, in list order. */
  function Ipv4Interfaces(list: seq<IfAddr>): (r: seq<Iface>)
    ensures |r| <= |list|
  {
    if |list| == 0 then []
    else (if IsIpv4(list[0]) then [IfaceOf(list[0])] else []) + Ipv4Interfaces(list[1..])
  }

  /** The walk over two lists one after the other makes the callbacks of
      the first, then those of the second. */
  lemma {:induction false} WalkAppend(a: seq<IfAddr>, b: seq<IfAddr>)
    ensures Ipv4Interfaces(a + b) == Ipv4Interfaces(a) + Ipv4Interfaces(b)
    decreases |a|
  {
    if |a| == 0 {
      assert a + b == b;
    } else {
      var head := if IsIpv4(a[0]) then [IfaceOf(a[0])] else [];
      assert (a + b)[0] == a[0];
      assert (a + b)[1..] == a[1..] + b;
      assert Ipv4Interfaces(a + b) == head + Ipv4Interfaces(a[1..] + b);
      WalkAppend(a[1..], b);
      assert Ipv4Interfaces(a) == head + Ipv4Interfaces(a[1..]);
    }
  }

  /** A single entry yields one callback with its name and address when it
      is an IPv4 entry, and none when its address is null or of another
      family. Together with `WalkAppend` this says the callback runs exactly
      once per IPv4 entry, in list order. */
  lemma WalkEntry(e: IfAddr)
    ensures Ipv4Interfaces([e]) == if IsIpv4(e) then [IfaceOf(e)] else []
  {
    assert [e][1..] == [];
  }

  /** Dropping an entry with a null or non-IPv4 address changes no callback. */
  lemma SkippedEntry(a: seq<IfAddr>, e: IfAddr, b: seq<IfAddr>)
    requires !IsIpv4(e)
    ensures Ipv4Interfaces(a + [e] + b) == Ipv4Interfaces(a + b)
  {
    WalkAppend(a + [e], b);
    WalkAppend(a, [e]);
    WalkAppend(a, b);
    WalkEntry(e);
  }

  /** Every callback comes from an IPv4 entry of the list, and every IPv4
      entry makes one. */
  lemma {:induction false} WalkMembers(list: seq<IfAddr>, x: Iface)
    ensures x in Ipv4Interfaces(list) <==> exists i :: 0 <= i < |list| && IsIpv4(list[i]) && IfaceOf(list[i]) == x
    decreases |list|
  {
    if |list| > 0 {
      WalkMembers(list[1..], x);
      if x in Ipv4Interfaces(list[1..]) {
        var i :| 0 <= i < |list[1..]| && IsIpv4(list[1..][i]) && IfaceOf(list[1..][i]) == x;
        assert list[i + 1] == list[1..][i];
      }
      if exists i :: 0 <= i < |list| && IsIpv4(list[i]) && IfaceOf(list[i]) == x {
        var i :| 0 <= i < |list| && IsIpv4(list[i]) && IfaceOf(list[i]) == x;
        if i > 0 {
          assert list[1..][i - 1] == list[i];
        }
      }
    }
  }

  /** The calls the visitor makes. */
  datatype VisitCall = GetIfAddrs | Callback(iface: Iface) | FreeIfAddrs

  /** The visitor's return value and the calls it made. */
  datatype Visit = Visit(rc: int, calls: seq<VisitCall>)

  function Callbacks(ifaces: seq<Iface>): (r: seq<VisitCall>)
    ensures |r| == |ifaces|
    ensures forall i :: 0 <= i < |r| ==> r[i] == Callback(ifaces[i])
  {
    seq(|ifaces|, i requires 0 <= i < |ifaces| => Callback(ifaces[i]))
  }

  /** `plt_ifAddrListVisitor(pfnCallback)`; `list` is what getifaddrs()
      produced, `None` when it failed. A failure returns -1 before any
      callback and frees nothing; otherwise the callbacks of the walk run,
      the list is freed once after them, and 0 is returned. */
  function IfAddrListVisitor(list: Option<seq<IfAddr>>): (r: Visit)
    ensures r.rc == 0 || r.rc == -1
    ensures r.rc == -1 <==> list.None?
    ensures |r.calls| >= 1 && r.calls[0] == GetIfAddrs
    ensures forall i :: 0 <= i < |r.calls| ==>
              (r.calls[i] == FreeIfAddrs <==> list.Some? && i == |r.calls| - 1)
    ensures forall i :: 0 <= i < |r.calls| ==>
              (r.calls[i].Callback? <==> list.Some? && 0 < i < |r.calls| - 1)
    ensures list.Some? ==>
              |r.calls| == |Ipv4Interfaces(list.value)| + 2
              && forall i :: 0 <= i < |Ipv4Interfaces(list.value)| ==>
                   r.calls[i + 1] == Callback(Ipv4Interfaces(list.value)[i])
  {
    match list
    case None => Visit(-1, [GetIfAddrs])
    case Some(entries) => Visit(0, [GetIfAddrs] + Callbacks(Ipv4Interfaces(entries)) + [FreeIfAddrs])
  }

  /** `plt_sockStartup()`: nothing to initialise on POSIX. */
  function SockStartup(): (rc: int)
  {
    0
  }

  /** `plt_sockCleanup()`: nothing to release on POSIX. */
  function SockCleanup(): (rc: int)
  {
    0
  }
}

=== FILE: program.dfy ===
/** The entry point of src/main.c: start the socket layer, scan every IPv4
    interface in turn, and clean up on every path. */
module Program {
  import opened Wrappers
  import opened Packet
  import opened Platform
  import opened Session

  /** The calls `main` makes, with the visitor's calls in between. */
  datatype MainCall = Startup | Visitor(call: VisitCall) | Cleanup

  /** What a run produced: the calls, one scan result per interface
      scanned, and the exit code. */
  datatype MainResult = MainResult(calls: seq<MainCall>, sessions: seq<SessionResult>, exitCode: int)

  /** The static receive buffer starts out zeroed. */
  function ZeroBuffer(): (b: seq<bv8>)
    ensures |b| == WorkBufferSize
  {
    Zeros(WorkBufferSize)
  }

  /** The receive buffer as scan number `k` finds it: the initial buffer
      for the first scan, and what scan `k - 1` left behind for the others. */
  function BufferBefore(ifaces: seq<Iface>, env: nat -> Env, work: seq<bv8>, k: nat): (b: seq<bv8>)
    requires |work| == WorkBufferSize && k <= |ifaces|
    ensures |b| == WorkBufferSize
  {
    if k == 0 then work
    else Scan(ifaces[k - 1].ip4, env(k - 1), BufferBefore(ifaces, env, work, k - 1)).work
  }

  /** The scans of the callbacks, one after the other: scan number `k`
      probes the `k`-th interface with the `k`-th environment, on the
      receive buffer the scan before it left behind (`work` for the first). */
  function ScanAll(ifaces: seq<Iface>, env: nat -> Env, work: seq<bv8>): (r: seq<SessionResult>)
    requires |work| == WorkBufferSize
    ensures |r| == |ifaces|
    ensures forall k :: 0 <= k < |r| ==> |r[k].work| == WorkBufferSize
    ensures |r| > 0 ==> r[0] == Scan(ifaces[0].ip4, env(0), work)
    ensures forall k :: 0 < k < |r| ==> r[k] == Scan(ifaces[k].ip4, env(k), r[k - 1].work)
  {
    var r := seq(|ifaces|, k requires 0 <= k < |ifaces| => Scan(ifaces[k].ip4, env(k), BufferBefore(ifaces, env, work, k)));
    assert forall k :: 0 <= k < |r| ==> r[k] == Scan(ifaces[k].ip4, env(k), BufferBefore(ifaces, env, work, k));
    r
  }

  function VisitorCalls(calls: seq<VisitCall>): (r: seq<MainCall>)
    ensures |r| == |calls| && forall i :: 0 <= i < |r| ==> r[i] == Visitor(calls[i])
  {
    seq(|calls|, i requires 0 <= i < |calls| => Visitor(calls[i]))
  }

  /** `main`, with `startupRc` the result of plt_sockStartup() and `list`
      what getifaddrs() produced. The visitor runs only when startup
      returned 0, cleanup runs once and last on every path, and the exit
      code is 0. */
  function Main(startupRc: int, list: Option<seq<IfAddr>>, env: nat -> Env): (r: MainResult)
    ensures r.exitCode == 0
    ensures |r.calls| >= 2 && r.calls[0] == Startup
    ensures forall i :: 0 <= i < |r.calls| ==> (r.calls[i] == Cleanup <==> i == |r.calls| - 1)
    ensures startupRc != 0 ==> r.calls == [Startup, Cleanup] && r.sessions == []
    ensures startupRc == 0 ==> r.calls[1..|r.calls| - 1] == VisitorCalls(IfAddrListVisitor(list).calls)
    ensures |r.sessions| == (if startupRc == 0 && list.Some? then |Ipv4Interfaces(list.value)| else 0)
    ensures startupRc == 0 && list.Some? ==>
              r.sessions == ScanAll(Ipv4Interfaces(list.value), env, ZeroBuffer())
  {
    if startupRc != 0 then MainResult([Startup, Cleanup], [], 0)
    else
      var visit := IfAddrListVisitor(list);
      var sessions := if list.Some? then ScanAll(Ipv4Interfaces(list.value), env, ZeroBuffer()) else [];
      MainResult([Startup] + VisitorCalls(visit.calls) + [Cleanup], sessions, 0)
  }

  /** On POSIX startup cannot fail, so the interfaces are always scanned:
      one scan per IPv4 interface getifaddrs() lists, in list order. */
  lemma PosixAlwaysScans(list: seq<IfAddr>, env: nat -> Env)
    ensures SockCleanup() == 0
    ensures var r := Main(SockStartup(), Some(list), env);
            && r.calls[1] == Visitor(GetIfAddrs)
            && |r.sessions| == |Ipv4Interfaces(list)|
            && r.sessions == ScanAll(Ipv4Interfaces(list), env, ZeroBuffer())
  {
  }
}

=== FILE: render.dfy ===
/** The text the scan logs for an accepted response (src/main.c, the end of
    the receive loop): the unit identifier as hex pairs with a '-' after the
    first byte, then "(hostName)" when there is one, all written through the
    bounded builder into `char logString[200]`. */
module Render {
  import opened Wrappers
  import opened Buffer
  import CStrings

  /** sizeof(logString) */
  const LogSize: int := 200

  const HexDigits: string := "0123456789ABCDEF"

  /** The value of an upper-case hexadecimal digit, -1 for any other
      character. */
  function DigitValue(c: char): (d: int)
  {
    if '0' <= c <= '9' then c as int - '0' as int
    else if 'A' <= c <= 'F' then c as int - 'A' as int + 10
    else -1
  }

  lemma DigitOfValue(d: int)
    requires 0 <= d < 16
    ensures DigitValue(HexDigits[d]) == d
  {
    assert HexDigits[0] == '0' && HexDigits[1] == '1' && HexDigits[2] == '2' && HexDigits[3] == '3';
    assert HexDigits[4] == '4' && HexDigits[5] == '5' && HexDigits[6] == '6' && HexDigits[7] == '7';
    assert HexDigits[8] == '8' && HexDigits[9] == '9' && HexDigits[10] == 'A' && HexDigits[11] == 'B';
    assert HexDigits[12] == 'C' && HexDigits[13] == 'D' && HexDigits[14] == 'E' && HexDigits[15] == 'F';
  }

  /** `%02X` of one byte: two upper-case hex digits whose value is the byte. */
  function Hex2(b: bv8): (r: string)
    ensures |r| == 2 && DigitValue(r[0]) >= 0 && DigitValue(r[1]) >= 0
    ensures 16 * DigitValue(r[0]) + DigitValue(r[1]) == b as int
  {
    DigitOfValue(b as int / 16);
    DigitOfValue(b as int % 16);
    [HexDigits[b as int / 16], HexDigits[b as int % 16]]
  }

  /** The hex pairs of all bytes, one after the other. */
  function HexString(ids: seq<bv8>): (r: string)
    ensures |r| == 2 * |ids|
  {
    if |ids| == 0 then [] else Hex2(ids[0]) + HexString(ids[1..])
  }

  /** The unit identifier as displayed: its hex pairs with a separator
      inserted right after the first byte's pair. */
  function UnitIdText(ids: seq<bv8>): (t: string)
  {
    if |ids| == 0 then [] else HexString(ids)[..2] + "-" + HexString(ids)[2..]
  }

  /** The whole record text before any cut: unit identifier, then the host
      name in parentheses when it is not empty. */
  function RecordText(ids: seq<bv8>, host: string): (t: string)
  {
    UnitIdText(ids) + (if host == [] then [] else "(" + host + ")")
  }

  /** The texts the unit-ID loop passes to `bufPrintf`, from iteration `i` on:
      "%02X" of byte i, then "-" when i is 0. */
  function IdPieces(ids: seq<bv8>, i: nat): (ps: seq<string>)
    requires i <= |ids|
    decreases |ids| - i
  {
    if i == |ids| then []
    else [Hex2(ids[i])] + (if i == 0 then ["-"] else []) + IdPieces(ids, i + 1)
  }

  /** "(%s)" of the host name, printed only when its first byte is not 0. */
  function HostPieces(host: string): (ps: seq<string>)
  {
    if host != [] then ["(" + host + ")"] else []
  }

  /** Every `bufPrintf` call of one record, in order. */
  function RecordPieces(ids: seq<bv8>, host: string): (ps: seq<string>)
  {
    IdPieces(ids, 0) + HostPieces(host)
  }

  lemma {:induction false} IdPiecesTail(ids: seq<bv8>, i: nat)
    requires 1 <= i <= |ids|
    ensures Concat(IdPieces(ids, i)) == HexString(ids[i..])
    ensures forall k :: 0 <= k < |IdPieces(ids, i)| ==> IdPieces(ids, i)[k] != []
    decreases |ids| - i
  {
    if i < |ids| {
      IdPiecesTail(ids, i + 1);
      var ps := IdPieces(ids, i);
      assert ps == [Hex2(ids[i])] + IdPieces(ids, i + 1);
      assert ps[1..] == IdPieces(ids, i + 1);
      assert ids[i..][1..] == ids[i + 1..];
    } else {
      assert ids[i..] == [];
    }
  }

  /** The loop's calls spell out exactly the reference text of the unit
      identifier, and none of them is empty. */
  lemma IdPiecesText(ids: seq<bv8>)
    ensures Concat(IdPieces(ids, 0)) == UnitIdText(ids)
    ensures forall k :: 0 <= k < |IdPieces(ids, 0)| ==> IdPieces(ids, 0)[k] != []
  {
    if |ids| > 0 {
      var ps := IdPieces(ids, 0);
      IdPiecesTail(ids, 1);
      assert ps == [Hex2(ids[0]), "-"] + IdPieces(ids, 1);
      assert ps[1..][1..] == IdPieces(ids, 1);
      assert HexString(ids) == Hex2(ids[0]) + HexString(ids[1..]);
      assert HexString(ids)[..2] == Hex2(ids[0]);
      assert HexString(ids)[2..] == HexString(ids[1..]);
      assert Concat(ps) == Hex2(ids[0]) + ("-" + Concat(IdPieces(ids, 1)));
    }
  }

  lemma HostPiecesText(host: string)
    ensures Concat(HostPieces(host)) == (if host == [] then [] else "(" + host + ")")
    ensures forall k :: 0 <= k < |HostPieces(host)| ==> HostPieces(host)[k] != []
  {
    if host != [] {
      assert HostPieces(host)[1..] == [];
    }
  }

  /** All calls of one record spell out the record text, and none is
      empty. */
  lemma RecordPiecesText(ids: seq<bv8>, host: string)
    ensures Concat(RecordPieces(ids, host)) == RecordText(ids, host)
    ensures forall k :: 0 <= k < |RecordPieces(ids, host)| ==> RecordPieces(ids, host)[k] != []
  {
    IdPiecesText(ids);
    HostPiecesText(host);
    ConcatAppend(IdPieces(ids, 0), HostPieces(host));
  }

  lemma HexStringNoNul(ids: seq<bv8>)
    ensures NoNul(HexString(ids))
  {
    if |ids| > 0 {
      HexStringNoNul(ids[1..]);
      var h := Hex2(ids[0]);
      assert h[0] != NUL && h[1] != NUL;
    }
  }

  lemma RecordTextNoNul(ids: seq<bv8>, host: string)
    requires NoNul(host)
    ensures NoNul(RecordText(ids, host))
  {
    HexStringNoNul(ids);
  }

  /** The builder run over the given initial contents of `logString`, and the
      C string `logInfo` then reads from it. */
  function PrintRecord(initial: seq<char>, ids: seq<bv8>, host: string): (r: Option<string>)
    requires |initial| == LogSize
    ensures r.Some? ==> |r.value| < LogSize && NoNul(r.value)
  {
    CStrings.UpTo(PrintAll(Printed(initial, At(0)), LogSize, RecordPieces(ids, host)).buf, 0, NUL)
  }

  /** As written, `logString` is not initialised. Whatever it held, when at
      least one call runs the logged text is the record text, cut to 196
      characters plus "..." when longer. */
  lemma AsWrittenLogString(initial: seq<char>, ids: seq<bv8>, host: string)
    requires |initial| == LogSize && NoNul(host)
    requires ids != [] || host != []
    ensures PrintRecord(initial, ids, host) == Some(Bounded(RecordText(ids, host), LogSize - Margin))
  {
    var ps := RecordPieces(ids, host);
    RecordPiecesText(ids, host);
    RecordTextNoNul(ids, host);
    assert |ps| > 0 by {
      if ids != [] {
        assert |IdPieces(ids, 0)| > 0;
      }
    }
    var p0 := Printed(initial, At(0));
    var p1 := BufPrintf(initial, At(0), LogSize, Text(ps[0]));
    FirstPrintHolds(initial, 0, LogSize, ps[0]);
    PrintAllHolds(p1, 0, LogSize, ps[0], ps[1..]);
    assert ps[0] + Concat(ps[1..]) == Concat(ps);
    HoldsShows(PrintAll(p0, LogSize, ps), 0, LogSize, Concat(ps));
  }

  /** With no unit-ID byte and no host name no call runs, and `logInfo` reads
      the uninitialised array: what is logged is the C string it happened to
      hold. For example a stale "A" is logged, and with no terminator in it the
      read runs off the array. */
  lemma AsWrittenReadsUninitialised(initial: seq<char>)
    requires |initial| == LogSize
    ensures PrintRecord(initial, [], []) == CStrings.UpTo(initial, 0, NUL)
    ensures PrintRecord(seq(LogSize, i => if i == 0 then 'A' else NUL), [], []) == Some("A")
    ensures PrintRecord(seq(LogSize, _ => 'A'), [], []) == None
  {
    var stale := seq(LogSize, i => if i == 0 then 'A' else NUL);
    assert RecordPieces([], []) == [];
    CStrings.UpToAt(stale, 0, 1, NUL);
    assert stale[0..1] == "A";
  }

  /** `char logString[200] = ""`: the log buffer with the terminator in place
      before the first call. */
  function EmptyLog(): (b: seq<char>)
    ensures |b| == LogSize && b[0] == NUL
  {
    seq(LogSize, _ => NUL)
  }

  /** The builder run over the initialised buffer. */
  function PrintFixed(ids: seq<bv8>, host: string): (p: Printed)
  {
    PrintAll(Printed(EmptyLog(), At(0)), LogSize, RecordPieces(ids, host))
  }

  /** Over the initialised buffer, every record leaves the bounded record
      text as the C string at the start of `logString`. */
  lemma PrintFixedShows(ids: seq<bv8>, host: string)
    requires NoNul(host)
    ensures CStrings.UpTo(PrintFixed(ids, host).buf, 0, NUL) == Some(Bounded(RecordText(ids, host), LogSize - Margin))
    ensures |Bounded(RecordText(ids, host), LogSize - Margin)| < LogSize
  {
    var ps := RecordPieces(ids, host);
    RecordPiecesText(ids, host);
    RecordTextNoNul(ids, host);
    var p0 := Printed(EmptyLog(), At(0));
    assert Holds(p0, 0, LogSize, []);
    PrintAllHolds(p0, 0, LogSize, [], ps);
    assert [] + Concat(ps) == Concat(ps);
    HoldsShows(PrintAll(p0, LogSize, ps), 0, LogSize, Concat(ps));
  }

  /** The logged text with the buffer initialised: the record text, cut to
      196 characters and "..." when longer, so never more than 199
      characters. */
  function LogString(ids: seq<bv8>, host: string): (r: string)
    requires NoNul(host)
    ensures r == Bounded(RecordText(ids, host), LogSize - Margin)
    ensures |r| < LogSize
  {
    PrintFixedShows(ids, host);
    CStrings.UpTo(PrintFixed(ids, host).buf, 0, NUL).value
  }

  /** Whenever a unit-ID byte or a host name makes at least one `bufPrintf`
      call run, the as-written and the initialised buffers log the same
      text. */
  lemma FixAgreesWhenDefined(initial: seq<char>, ids: seq<bv8>, host: string)
    requires |initial| == LogSize && NoNul(host)
    requires ids != [] || host != []
    ensures PrintRecord(initial, ids, host) == Some(LogString(ids, host))
  {
    AsWrittenLogString(initial, ids, host);
  }

  /** The hex pairs of an example identifier. */
  lemma ExampleHex()
    ensures HexString([0xAA, 0xBB, 0xCC]) == "AABBCC"
  {
    assert HexDigits[10] == 'A' && HexDigits[11] == 'B' && HexDigits[12] == 'C';
    assert Hex2(0xAA) == "AA" && Hex2(0xBB) == "BB" && Hex2(0xCC) == "CC";
    var ids: seq<bv8> := [0xAA, 0xBB, 0xCC];
    assert ids[1..] == [0xBB, 0xCC] && ids[1..][1..] == [0xCC] && ids[1..][1..][1..] == [];
    assert HexString([0xCC]) == "CC";
    assert HexString([0xBB, 0xCC]) == "BBCC";
  }

  /** A record short enough for the buffer is logged in full. */
  lemma ShortRecordLogged(ids: seq<bv8>, host: string)
    requires NoNul(host) && |RecordText(ids, host)| <= LogSize - Margin
    ensures LogString(ids, host) == RecordText(ids, host)
  {
  }

  /** The rendering of an example identifier, with and without a host name,
      and of an empty record. */
  lemma ExampleRecord()
    ensures LogString([0xAA, 0xBB, 0xCC], "") == "AA-BBCC"
    ensures LogString([0xAA, 0xBB, 0xCC], "dev1") == "AA-BBCC(dev1)"
    ensures LogString([], "") == ""
  {
    var ids: seq<bv8> := [0xAA, 0xBB, 0xCC];
    ExampleHex();
    assert UnitIdText(ids) == "AA-BBCC";
    assert RecordText(ids, "") == "AA-BBCC";
    assert RecordText(ids, "dev1") == "AA-BBCC(dev1)";
    ShortRecordLogged(ids, "");
    ShortRecordLogged(ids, "dev1");
  }
}

=== FILE: session.dfy ===
/** One scan of one interface, `idnHelloScan` in src/main.c: set up a UDP
    socket, broadcast the request, then log one record per accepted answer
    until the receive loop ends, and close the socket if one was opened.

    Every system call is an answer the environment gives (`Env`); the
    500 ms window is the stream of events `select` and `recvfrom` deliver. */
module Session {
  import opened Wrappers
  import opened Net
  import opened Packet
  import Buffer
  import Render

  /** The setup calls, in the order `idnHelloScan` makes them. */
  datatype SetupStep = AddrToText | OpenSocket | EnableBroadcast | Bind | SendRequest

  const SetupOrder: seq<SetupStep> := [AddrToText, OpenSocket, EnableBroadcast, Bind, SendRequest]

  /** What one pass of the receive loop sees. */
  datatype Event =
    | Timeout                             // select() returned 0: the window is over
    | SelectError                         // select() returned a negative value
    | RecvError                           // the socket was ready, recvfrom() failed
    | Datagram(data: seq<bv8>, sender: Ip4) // recvfrom() delivered a datagram

  /** The answers of the system during one scan: the results of socket(),
      setsockopt(SO_BROADCAST), bind() and sendto(), the value rand()
      returned, and the events of the receive window. When the events run
      out, the window has closed. */
  datatype Env = Env(socketRc: int, broadcastRc: int, bindRc: int, rand: nat, sendRc: int, events: seq<Event>)

  /** Why the receive loop ended. */
  datatype StopReason =
    | TimedOut
    | SelectFailed
    | RecvFailed
    | SenderTextFailed
    | Refused(verdict: Verdict)

  datatype Outcome = SetupFailed(step: SetupStep) | Collected(stop: StopReason)

  datatype Collection = Collection(records: seq<Logged>, stop: StopReason, work: seq<bv8>)

  /** The setup calls made, the request handed to sendto() if it was
      reached, the records logged, how the scan ended, the descriptors
      passed to close(), and the receive buffer afterwards. */
  datatype SessionResult = SessionResult(
    steps: seq<SetupStep>,
    request: Option<seq<bv8>>,
    records: seq<Logged>,
    outcome: Outcome,
    closed: seq<int>,
    work: seq<bv8>)

  /** Whether a setup call succeeds in this environment. */
  predicate Succeeds(ifAddr: Ip4, env: Env, step: SetupStep)
  {
    match step
    case AddrToText => InetNtop(ifAddr, AddrTextSize).Some?
    case OpenSocket => env.socketRc >= 0
    case EnableBroadcast => env.broadcastRc >= 0
    case Bind => env.bindRc >= 0
    case SendRequest => env.sendRc >= 0
  }

  /** The host name bytes as the characters `%s` prints. */
  function HostText(bytes: seq<bv8>): (r: string)
    ensures |r| == |bytes|
    ensures forall i :: 0 <= i < |bytes| ==> r[i] as int == bytes[i] as int
    ensures (forall i :: 0 <= i < |bytes| ==> bytes[i] != 0) ==> Buffer.NoNul(r)
  {
    seq(|bytes|, i requires 0 <= i < |bytes| => (bytes[i] as int) as char)
  }

  /** What the loop logs for one accepted datagram: the fields read out of
      the receive buffer and the address the datagram came from. */
  datatype Logged = Logged(record: ScanRecord, sender: Ip4)

  /** The line `logInfo("%s at %s", logString, recvAddrString)` prints. */
  function Line(l: Logged): (line: string)
    requires forall i :: 0 <= i < |l.record.hostName| ==> l.record.hostName[i] != 0
    ensures line == Buffer.Bounded(Render.RecordText(l.record.unitId, HostText(l.record.hostName)), Render.LogSize - Buffer.Margin)
                    + " at " + Ip4Text(l.sender)
  {
    Render.LogString(l.record.unitId, HostText(l.record.hostName)) + " at " + Ip4Text(l.sender)
  }

  /** An event the loop accepts: a datagram whose sender can be printed and
      which passes all four checks. */
  predicate Accepts(e: Event, sent: bv16)
  {
    && e.Datagram?
    && InetNtop(e.sender, AddrTextSize).Some?
    && Validate(Received(e.data), sent) == Accepted
  }

  /** The record for an accepted event, when the receive buffer beyond the
      response holds `tail`. */
  function LoggedFor(e: Event, sent: bv16, tail: seq<bv8>): (l: Logged)
    requires Accepts(e, sent) && |tail| == WorkBufferSize - ResponseSize
  {
    Logged(Decode(e.data + tail), e.sender)
  }

  /** How the loop ends on an event it does not accept. */
  function StopFor(e: Event, sent: bv16): (stop: StopReason)
  {
    match e
    case Timeout => TimedOut
    case SelectError => SelectFailed
    case RecvError => RecvFailed
    case Datagram(data, sender) =>
      if InetNtop(sender, AddrTextSize).None? then SenderTextFailed
      else Refused(Validate(Received(data), sent))
  }

  /** The receive loop, event by event. It logs one record per accepted
      datagram and ends at the first event it does not accept: a timeout, a
      select() or recvfrom() error, a sender address that cannot be printed,
      or a refused datagram. */
  function Collect(events: seq<Event>, sent: bv16, work: seq<bv8>): (r: Collection)
    requires |work| == WorkBufferSize
    ensures |r.work| == WorkBufferSize
    ensures |r.records| <= |events|
    decreases |events|
  {
    if |events| == 0 then Collection([], TimedOut, work)
    else
      match events[0]
      case Timeout => Collection([], TimedOut, work)
      case SelectError => Collection([], SelectFailed, work)
      case RecvError => Collection([], RecvFailed, work)
      case Datagram(data, sender) =>
        var w := Store(data, work);
        if !Accepts(events[0], sent) then Collection([], StopFor(events[0], sent), w)
        else
          AcceptedFillsResponse(data, sent, work);
          var rest := Collect(events[1..], sent, w);
          Collection([LoggedFor(events[0], sent, work[ResponseSize..])] + rest.records, rest.stop, rest.work)
  }

  /** An accepted datagram is exactly one response long: storing it replaces
      the response bytes of the buffer and keeps the rest. */
  lemma AcceptedFillsResponse(data: seq<bv8>, sent: bv16, work: seq<bv8>)
    requires |work| == WorkBufferSize
    requires Validate(Received(data), sent) == Accepted
    ensures |data| == ResponseSize
    ensures Store(data, work) == data + work[ResponseSize..]
  {
  }

  /** One pass of the loop on an accepted datagram. */
  lemma CollectAccepted(events: seq<Event>, sent: bv16, work: seq<bv8>)
    requires |work| == WorkBufferSize && |events| > 0 && Accepts(events[0], sent)
    ensures var rest := Collect(events[1..], sent, Store(events[0].data, work));
            Collect(events, sent, work)
            == Collection([LoggedFor(events[0], sent, work[ResponseSize..])] + rest.records, rest.stop, rest.work)
  {
  }

  /** The pass that ends the loop. */
  lemma CollectRefused(events: seq<Event>, sent: bv16, work: seq<bv8>)
    requires |work| == WorkBufferSize && |events| > 0 && !Accepts(events[0], sent)
    ensures Collect(events, sent, work)
            == Collection([], StopFor(events[0], sent),
                          if events[0].Datagram? then Store(events[0].data, work) else work)
  {
  }

  /** Collect on a non-empty window, one pass unrolled. */
  lemma CollectUnfold(events: seq<Event>, sent: bv16, work: seq<bv8>)
    requires |work| == WorkBufferSize && |events| > 0
    ensures Collect(events, sent, work)
            == if Accepts(events[0], sent) then
                 var rest := Collect(events[1..], sent, Store(events[0].data, work));
                 Collection([LoggedFor(events[0], sent, work[ResponseSize..])] + rest.records, rest.stop, rest.work)
               else
                 Collection([], StopFor(events[0], sent),
                            if events[0].Datagram? then Store(events[0].data, work) else work)
  {
    if Accepts(events[0], sent) {
      CollectAccepted(events, sent, work);
    } else {
      CollectRefused(events, sent, work);
    }
  }

  /** One pass of the loop: an accepted datagram adds its record in front
      of the records the rest of the window yields; any other event ends
      the loop without a record. */
  lemma CollectStep(events: seq<Event>, sent: bv16, work: seq<bv8>)
    requires |work| == WorkBufferSize && |events| > 0
    ensures !Accepts(events[0], sent) ==> Collect(events, sent, work).records == []
    ensures Accepts(events[0], sent) ==>
              && |events[0].data| == ResponseSize
              && var rest := Collect(events[1..], sent, Store(events[0].data, work));
                 && Store(events[0].data, work)[ResponseSize..] == work[ResponseSize..]
                 && Collect(events, sent, work).records
                    == [LoggedFor(events[0], sent, work[ResponseSize..])] + rest.records
  {
    CollectUnfold(events, sent, work);
    if Accepts(events[0], sent) {
      AcceptedFillsResponse(events[0].data, sent, work);
    }
  }

  /** The loop runs through the accepted events and ends at the first
      event it does not accept, for the reason that event gives; a window
      that yields only accepted datagrams ends by timing out. */
  lemma {:induction false} CollectStops(events: seq<Event>, sent: bv16, work: seq<bv8>)
    requires |work| == WorkBufferSize
    ensures var r := Collect(events, sent, work);
            && (forall i :: 0 <= i < |r.records| ==> Accepts(events[i], sent))
            && (|r.records| < |events| ==>
                  !Accepts(events[|r.records|], sent) && r.stop == StopFor(events[|r.records|], sent))
            && (|r.records| == |events| ==> r.stop == TimedOut)
    decreases |events|
  {
    if |events| > 0 {
      if !Accepts(events[0], sent) {
        CollectRefused(events, sent, work);
      } else {
        CollectAccepted(events, sent, work);
        var w := Store(events[0].data, work);
        CollectStops(events[1..], sent, w);
        var r := Collect(events, sent, work);
        var rest := Collect(events[1..], sent, w);
        assert |r.records| == 1 + |rest.records|;
        forall i | 1 <= i < |r.records| ensures Accepts(events[i], sent) {
          assert events[1..][i - 1] == events[i];
        }
        if |r.records| < |events| {
          assert events[1..][|rest.records|] == events[|r.records|];
        }
      }
    }
  }

  /** The record at position `i` is the line for the `i`-th event. */
  lemma {:induction false} CollectRecordAt(events: seq<Event>, sent: bv16, work: seq<bv8>, i: nat)
    requires |work| == WorkBufferSize
    requires i < |Collect(events, sent, work).records|
    ensures Accepts(events[i], sent)
    ensures Collect(events, sent, work).records[i] == LoggedFor(events[i], sent, work[ResponseSize..])
    decreases i
  {
    CollectStep(events, sent, work);
    if i > 0 {
      var w := Store(events[0].data, work);
      CollectRecordAt(events[1..], sent, w, i - 1);
      assert events[1..][i - 1] == events[i];
    }
  }

  /** The records are those of the accepted datagrams, in arrival order;
      each depends only on its own datagram and on what the buffer held
      beyond the response length when the loop began. */
  lemma CollectRecords(events: seq<Event>, sent: bv16, work: seq<bv8>)
    requires |work| == WorkBufferSize
    ensures var r := Collect(events, sent, work);
            forall i :: 0 <= i < |r.records| ==>
              Accepts(events[i], sent) && r.records[i] == LoggedFor(events[i], sent, work[ResponseSize..])
  {
    var r := Collect(events, sent, work);
    forall i | 0 <= i < |r.records|
      ensures Accepts(events[i], sent) && r.records[i] == LoggedFor(events[i], sent, work[ResponseSize..])
    {
      CollectRecordAt(events, sent, work, i);
    }
  }

  /** Two windows that start with the same accepted datagram collect the
      same when their tails do. */
  lemma SameHeadSameCollect(xs: seq<Event>, ys: seq<Event>, sent: bv16, work: seq<bv8>)
    requires |work| == WorkBufferSize && |xs| > 0 && |ys| > 0 && xs[0] == ys[0] && Accepts(xs[0], sent)
    requires Collect(xs[1..], sent, Store(xs[0].data, work)) == Collect(ys[1..], sent, Store(ys[0].data, work))
    ensures Collect(xs, sent, work) == Collect(ys, sent, work)
  {
    CollectAccepted(xs, sent, work);
    CollectAccepted(ys, sent, work);
  }

  /** Once the window holds an event the loop does not accept, events after
      the window change nothing: no later datagram is read. */
  lemma {:induction false} LaterEventsIgnored(events: seq<Event>, more: seq<Event>, sent: bv16, work: seq<bv8>, j: nat)
    requires |work| == WorkBufferSize
    requires j < |events| && !Accepts(events[j], sent)
    ensures Collect(events + more, sent, work) == Collect(events, sent, work)
    decreases j
  {
    var all := events + more;
    assert all[0] == events[0];
    if Accepts(events[0], sent) {
      var w := Store(events[0].data, work);
      assert all[1..] == events[1..] + more;
      assert events[1..][j - 1] == events[j];
      LaterEventsIgnored(events[1..], more, sent, w, j - 1);
      SameHeadSameCollect(all, events, sent, work);
    } else {
      CollectRefused(events, sent, work);
      CollectRefused(all, sent, work);
    }
  }

  /** The end of a scan: the socket is closed when socket() returned one. */
  function Finish(steps: seq<SetupStep>, fd: int, request: Option<seq<bv8>>, records: seq<Logged>,
                  outcome: Outcome, work: seq<bv8>): (r: SessionResult)
  {
    SessionResult(steps, request, records, outcome, if fd >= 0 then [fd] else [], work)
  }

  /** `idnHelloScan(ifName, ifIP4Addr)`. A failed setup logs nothing and
      leaves the receive buffer alone; the receive loop runs only after all
      setup calls, with the request for `rand()` sent. */
  function Scan(ifAddr: Ip4, env: Env, work: seq<bv8>): (r: SessionResult)
    requires |work| == WorkBufferSize
    ensures |r.work| == WorkBufferSize
    ensures r.outcome.SetupFailed? ==> r.records == [] && r.work == work
    ensures r.outcome.Collected? ==> r.steps == SetupOrder && r.request == Some(EncodeRequest(env.rand))
  {
    if InetNtop(ifAddr, AddrTextSize).None? then
      Finish([AddrToText], -1, None, [], SetupFailed(AddrToText), work)
    else if env.socketRc < 0 then
      Finish([AddrToText, OpenSocket], env.socketRc, None, [], SetupFailed(OpenSocket), work)
    else if env.broadcastRc < 0 then
      Finish([AddrToText, OpenSocket, EnableBroadcast], env.socketRc, None, [], SetupFailed(EnableBroadcast), work)
    else if env.bindRc < 0 then
      Finish([AddrToText, OpenSocket, EnableBroadcast, Bind], env.socketRc, None, [], SetupFailed(Bind), work)
    else
      var request := EncodeRequest(env.rand);
      if env.sendRc < 0 then
        Finish(SetupOrder, env.socketRc, Some(request), [], SetupFailed(SendRequest), work)
      else
        var c := Collect(env.events, SequenceOf(env.rand), work);
        Finish(SetupOrder, env.socketRc, Some(request), c.records, Collected(c.stop), c.work)
  }

  /** The setup calls run in order; every one before the last succeeded;
      the scan stops at the first that fails, and a failed setup logs no
      record and leaves the receive buffer alone. */
  lemma SetupInOrder(ifAddr: Ip4, env: Env, work: seq<bv8>)
    requires |work| == WorkBufferSize
    ensures var r := Scan(ifAddr, env, work);
            && 1 <= |r.steps| <= |SetupOrder| && r.steps == SetupOrder[..|r.steps|]
            && (forall i :: 0 <= i < |r.steps| - 1 ==> Succeeds(ifAddr, env, r.steps[i]))
            && (r.outcome.SetupFailed? <==> !Succeeds(ifAddr, env, r.steps[|r.steps| - 1]))
            && (r.outcome.SetupFailed? ==>
                  r.outcome.step == r.steps[|r.steps| - 1] && r.records == [] && r.work == work)
            && (r.outcome.Collected? ==> r.steps == SetupOrder)
  {
  }

  /** The socket is closed exactly once when socket() returned a
      descriptor, and never when it failed or was not reached. */
  lemma ClosedOnceIffOpened(ifAddr: Ip4, env: Env, work: seq<bv8>)
    requires |work| == WorkBufferSize
    ensures var r := Scan(ifAddr, env, work);
            r.closed == (if OpenSocket in r.steps && env.socketRc >= 0 then [env.socketRc] else [])
  {
  }

  /** sendto() is reached only after bind() succeeded, and it is handed the
      request carrying `rand() & 0xFFFF`. */
  lemma RequestSent(ifAddr: Ip4, env: Env, work: seq<bv8>)
    requires |work| == WorkBufferSize
    ensures var r := Scan(ifAddr, env, work);
            && (r.request.Some? <==> SendRequest in r.steps)
            && (r.request.Some? ==> r.request.value == EncodeRequest(env.rand))
  {
  }

  /** A scan that collects answers checks them against the sequence of the
      request it sent, and reports what the receive loop yields. */
  lemma CollectsAgainstRequest(ifAddr: Ip4, env: Env, work: seq<bv8>)
    requires |work| == WorkBufferSize
    ensures var r := Scan(ifAddr, env, work);
            r.outcome.Collected? ==>
              var c := Collect(env.events, SequenceOf(env.rand), work);
              r.records == c.records && r.outcome.stop == c.stop && r.work == c.work
  {
    if Succeeds(ifAddr, env, AddrToText) && env.socketRc >= 0 && env.broadcastRc >= 0
       && env.bindRc >= 0 && env.sendRc >= 0 {
      var c := Collect(env.events, SequenceOf(env.rand), work);
      var r := Scan(ifAddr, env, work);
      assert r.records == c.records && r.outcome == Collected(c.stop) && r.work == c.work;
    }
  }

  /** All setup calls succeed exactly when the receive loop runs. */
  lemma CollectsIffSetupSucceeds(ifAddr: Ip4, env: Env, work: seq<bv8>)
    requires |work| == WorkBufferSize
    ensures Scan(ifAddr, env, work).outcome.Collected? <==>
              forall i :: 0 <= i < |SetupOrder| ==> Succeeds(ifAddr, env, SetupOrder[i])
  {
    var r := Scan(ifAddr, env, work);
    SetupInOrder(ifAddr, env, work);
    if !r.outcome.Collected? {
      var k := |r.steps| - 1;
      assert r.steps[k] == SetupOrder[k];
    }
  }

  /** A scan whose window closes before any answer: no record, a normal end,
      and the socket closed. */
  lemma QuietNetwork(ifAddr: Ip4, env: Env, work: seq<bv8>)
    requires |work| == WorkBufferSize
    requires forall i :: 0 <= i < |SetupOrder| ==> Succeeds(ifAddr, env, SetupOrder[i])
    requires env.events == [] || env.events[0] == Timeout
    ensures Scan(ifAddr, env, work).records == []
    ensures Scan(ifAddr, env, work).outcome == Collected(TimedOut)
    ensures Scan(ifAddr, env, work).closed == [env.socketRc]
  {
    CollectsIffSetupSucceeds(ifAddr, env, work);
    CollectsAgainstRequest(ifAddr, env, work);
    assert Succeeds(ifAddr, env, SetupOrder[1]);
  }

  /** One device answers this scan before the window closes: exactly one
      record is logged, naming the unit identifier and host name the device
      sent and the address it sent them from. */
  lemma DeviceFound(ifAddr: Ip4, env: Env, work: seq<bv8>, unitId: seq<bv8>, hostName: seq<bv8>, sender: Ip4)
    requires |work| == WorkBufferSize
    requires forall i :: 0 <= i < |SetupOrder| ==> Succeeds(ifAddr, env, SetupOrder[i])
    requires |unitId| < UnitIdCapacity && |hostName| < HostNameCapacity
    requires forall i :: 0 <= i < |hostName| ==> hostName[i] != 0
    requires env.events == [Datagram(EncodeResponse(SequenceOf(env.rand), unitId, hostName), sender), Timeout]
    ensures Scan(ifAddr, env, work).records == [Logged(ScanRecord(unitId, hostName), sender)]
    ensures Line(Scan(ifAddr, env, work).records[0])
            == Render.LogString(unitId, HostText(hostName)) + " at " + Ip4Text(sender)
    ensures Scan(ifAddr, env, work).outcome == Collected(TimedOut)
  {
    CollectsIffSetupSucceeds(ifAddr, env, work);
    CollectsAgainstRequest(ifAddr, env, work);
    NtopFits(sender);
    var s := SequenceOf(env.rand);
    var e := EncodeResponse(s, unitId, hostName);
    ResponseAccepted(s, unitId, hostName);
    ResponseRoundTrip(s, unitId, hostName, work);
    CollectRecords(env.events, s, work);
    assert Accepts(env.events[0], s);
    assert !Accepts(env.events[1], s);
    var c := Collect(env.events, s, work);
    assert |c.records| == 1;
    assert Store(e, work) == e + work[ResponseSize..];
  }
}

=== FILE: wrappers.dfy ===
/** The optional value used wherever the C code returns a null pointer or a
    "not found" result. */
module Wrappers {

  datatype Option<+T> = None | Some(value: T)
}
